=== FILE: README.md ===
# ElastiCache auto-discovery, modelled in Dafny

This project models how the Go `elasticache` package discovers the nodes of
an AWS ElastiCache memcached cluster, and proves properties of that model.

1. The configuration endpoint is read from `ELASTICACHE_ENDPOINT`.
2. The client sends `stats` to it and reads the reply up to the `END` line.
3. The client finds the `STAT version …` line and compares that version
   with 1.4.14.
4. It then sends either `config get cluster` (1.4.14 and later) or
   `get AmazonElastiCache:cluster` (older versions).
5. The reply is split on spaces into `host|ip|port` entries. Each entry is
   parsed into a `Node`, and each node becomes a `host:port` address for
   the memcache client.

Modules:

- `Results` (`results.dfy`): `Result` and `Option`.
- `GoStrings` (`strings.dfy`): `strings.Split` with a one-character
  separator, and its inverse `Join`.
- `GoStrconv` (`strconv.dfy`): 64-bit `strconv.Atoi`, including the
  precedence between its range and syntax errors, and `%d` formatting
  (`Itoa`).
- `Versions` (`versions.dfy`): dotted numeric versions. Covers parsing,
  formatting, and a comparison in which a missing segment counts as zero.
- `Transport` (`transport.dfy`): the TCP connection as a class. `sent` is
  everything written so far. `unread` holds the lines the server has
  still to deliver.
- `Elasticache` (`elasticache.dfy`): the package itself. It has the
  endpoint lookup, the `END`-framed command exchange, stats parsing, the
  choice of discovery command, node-entry and node-list parsing, address
  building, and the whole discovery run. That run is specified by the
  functions `NodeDataExchange` and `Discovery`, which map the server's
  lines to the result, what was sent, and what is left unread.

## Model

| member | source | states |
|---|---|---|
| GoStrings.Split | elasticache.go:161 | yields at least one piece, no piece contains the separator, and joining the pieces with the separator gives back the input |
| GoStrings.SplitJoin | elasticache.go:125 | splitting pieces that are free of the separator, after joining them with it, gives back exactly those pieces |
| GoStrconv.NatToDecimal | elasticache.go:70 | `%d` of a natural number is a non-empty digit string without a leading zero whose decimal value is the number |
| GoStrconv.Atoi | elasticache.go:166 | any accepted number lies within the 64-bit signed range |
| GoStrconv.AtoiItoa | elasticache.go:166 | `Atoi` accepts the decimal text of every 64-bit integer and returns that integer |
| GoStrconv.AtoiSound | elasticache.go:166 | every accepted text is an optional `+` or `-` followed by at least one digit, and the digits denote the returned value, negated after `-` |
| GoStrconv.AtoiComplete | elasticache.go:166-169 | conversely, every optional sign followed by digits, including `+` and leading zeros, is read as its value when that fits in 64 bits, and is a range error otherwise |
| GoStrconv.AtoiOverflowFirst | elasticache.go:166-169 | a digit run whose value exceeds 64 unsigned bits is a range error even when a non-digit follows it, so the range error takes precedence over the syntax error |
| GoStrconv.AtoiSyntaxAfterFittingRun | elasticache.go:166-169 | when the digits before the first non-digit fit in 64 unsigned bits, the non-digit is a syntax error, so a range error is reported only for an overflowing run |
| GoStrconv.ItoaInjective | elasticache.go:70 | distinct port numbers format to distinct texts |
| GoStrconv.ItoaAlphabet | elasticache.go:70 | a formatted number contains only digits and `-`, so never a `|` or a space |
| GoStrconv.AtoiRejectsNonDigit | elasticache.go:166-169 | a text with a non-digit anywhere after the optional sign is refused |
| GoStrconv.AtoiExamples | elasticache.go:166-169 | `11211` and `-7` parse; `foo`, the empty text and a lone `-` are syntax errors |
| Versions.ParseSegments | elasticache.go:156 | succeeds exactly when every piece is a non-empty run of digits, and then gives each piece's decimal value in order |
| Versions.ParseVersion | elasticache.go:156 | a parsed version has one segment per dot-separated piece of the text |
| Versions.ParseFormatVersion | elasticache.go:93 | formatting a non-empty version and parsing the result gives back the version |
| Versions.Compare | elasticache.go:104 | the result is -1 (earlier), 0 (equal) or 1 (later) |
| Versions.LessThan | elasticache.go:104 | `a` is earlier than `b` exactly when `b` compares as later than `a`; no version is earlier than itself |
| Versions.CompareAntisymmetric | elasticache.go:104 | swapping the operands negates the comparison |
| Versions.CompareTransitive | elasticache.go:104 | ordering is transitive, for both the strict and the non-strict order |
| Versions.CompareFirstDifference | elasticache.go:104 | when all earlier segments agree, the order is decided by the first segment that differs, with absent segments read as zero |
| Versions.CompareTrailingZero | elasticache.go:93 | appending a zero segment to a version does not change how it compares with any other |
| Versions.SegmentsAreNumeric | elasticache.go:104 | 1.10 is later than 1.9 (segments compare as numbers, not as text) |
| Versions.MalformedVersions | elasticache.go:156 | `1..4`, `.1` and `1.` are not versions |
| Transport.Connection.Write | elasticache.go:76 | the data is appended to what was sent; nothing is read |
| Transport.Connection.ReadLine | elasticache.go:79-81 | delivers the next unread line and consumes it, or reports the end of input and consumes nothing |
| Elasticache.LookupEndpoint | elasticache.go:136-145 | the endpoint is the variable's value exactly when the value is non-empty, and otherwise the not-set error |
| Elasticache.RequestFramesCommand | elasticache.go:76 | the request is the command followed by CRLF, so a command without a carriage return splits back out of it at the first CR |
| Elasticache.ResponseLines | elasticache.go:79-86 | the body is the longest prefix of the incoming lines without an `END` line, and `END` follows it whenever input remains |
| Elasticache.AfterEnd | elasticache.go:79-86 | what remains after the body and its `END` line, or nothing when there is no `END` |
| Elasticache.FramedResponse | elasticache.go:79-88 | a body without `END` followed by `END` reads back as that body and leaves exactly the lines after `END` unread |
| Elasticache.UnterminatedResponse | elasticache.go:80-86 | without an `END` line the whole input is the response and nothing is left |
| Elasticache.RemoteCommand | elasticache.go:75-89 | sends the command with CRLF, returns the lines before `END` glued together without separators, and consumes them and the `END` line |
| Elasticache.RemoteCommandLines | elasticache.go:75-89 | the same exchange, returning the lines before `END` one by one |
| Elasticache.MatchVersionLine | elasticache.go:95 | a match means the whole text is `STAT version `, then a non-empty run of digits and dots (the capture), then only whitespace |
| Elasticache.MatchVersionLineComplete | elasticache.go:95 | conversely, every text of that shape matches and captures that version text |
| Elasticache.NotVersionLine | elasticache.go:95 | a line that does not begin with `STAT version ` never matches |
| Elasticache.ParsedVersionChars | elasticache.go:95 | every text that reads as a version is non-empty and made of digits and dots, so it fits the capture |
| Elasticache.ParseStats | elasticache.go:150-158 | reports missing version information exactly when the text does not match; a capture that is not a version gives the malformed-version error carrying that capture; a success is the version parsed from the capture |
| Elasticache.ParseStatsLines | elasticache.go:150-158 | reports missing version information exactly when no reply line matches the version pattern; its only other error is a malformed version |
| Elasticache.ParseStatsLinesFirstMatch | elasticache.go:150-158 | when line k is the first that matches, the result is the parse of line k alone, whatever follows it |
| Elasticache.ConcatenatedStatsMissVersion | elasticache.go:84 | when the first reply line is at least as long as `STAT version ` and does not start with it, the glued reply never yields version information |
| Elasticache.StatsReplyAsWritten | elasticache.go:99 | on a three-line stats reply, parsing the glued text finds no version, while the line-by-line parse finds 1.4.14 |
| Elasticache.StatsLineVersion | elasticache.go:150-157 | a version line carrying the formatted version `v`, with trailing whitespace, parses back to `v` |
| Elasticache.DiscoveryCommandBoundary | elasticache.go:104-108 | 1.4.13, 1.4 and 0.99.99 get the old command; 1.4.14, 1.4.14.0 and 1.10 get the new one |
| Elasticache.DiscoveryCommandMonotone | elasticache.go:104-108 | a server no older than one that gets the new command gets the new command too |
| Elasticache.StatsLineLegacy | elasticache.go:99-105 | `STAT version 1.4.13` leads to the old command |
| Elasticache.StatsLineCurrent | elasticache.go:99-108 | `STAT version 1.4.14` with a trailing carriage return leads to the new command |
| Elasticache.DiscoveryCommand | elasticache.go:104-108 | the command is `config get cluster` or `get AmazonElastiCache:cluster`, and it is `config get cluster` exactly when 1.4.14 does not compare as later than the server's version |
| Elasticache.ParseNodeLine | elasticache.go:160-172 | fewer than three `|`-separated fields gives the missing-field error for the entry, and only then; with three or more, a port field `Atoi` refuses gives the bad-port error with that field and `Atoi`'s error, and a port field `Atoi` accepts gives the node with the first two fields as host and IP and `Atoi`'s value as port; so a parsed host and IP contain no `|` and the port is a 64-bit integer |
| Elasticache.ParseNodeLineRoundTrip | elasticache.go:160-172 | an entry formatted from a node whose host and IP avoid `|` parses back to that node |
| Elasticache.ParseNodeLineExtraFields | elasticache.go:161-165 | fields after the third are ignored |
| Elasticache.ParseNodeLineBadPort | elasticache.go:166-169 | a port field that `Atoi` refuses makes the entry fail with that field and that error |
| Elasticache.ParseNodeLineShort | elasticache.go:161-166 | an entry with only two fields fails as a missing field |
| Elasticache.ParseNodeLineExamples | elasticache_test.go:33-39 | `host|foo|1` parses to host `host`, IP `foo`, port 1; `host|foo` is refused |
| Elasticache.ParseTokens | elasticache.go:125-133 | succeeds exactly when every entry parses, and then gives the parsed nodes in entry order; a failure is a missing-field or bad-port error |
| Elasticache.ParseTokensAll | elasticache.go:125-133 | conversely, entries that each parse to a node give exactly those nodes, in order |
| Elasticache.ParseTokensFirstError | elasticache.go:126-128 | when all entries before the k-th parse and the k-th fails, the list fails with the k-th entry's error |
| Elasticache.ParseNodeInfo | elasticache.go:124-133 | the loop's result equals parsing every space-separated entry, stopping at the first error |
| Elasticache.NodeInfoRoundTrip | elasticache.go:125-133 | a non-empty list of nodes whose hosts and IPs avoid `|` and spaces, once formatted, parses back to the same list |
| Elasticache.EmptyNodeInfo | elasticache.go:125-128 | an empty reply is one empty entry, so it fails as a missing field rather than giving no nodes |
| Elasticache.ParseNodeInfoExample | elasticache_test.go:40-56 | `host|foo|1 host|bar|2 host|baz|3` parses to those three nodes, in order |
| Elasticache.NodeURLRoundTrip | elasticache.go:70 | for a host without `:`, splitting the address at `:` gives the host and the port's text, and `Atoi` turns that text back into the port |
| Elasticache.NodeURLIdentifiesHostPort | elasticache.go:70 | two nodes get the same address exactly when host and port agree, whatever the hosts contain |
| Elasticache.NodeURL | elasticache.go:70 | the address is the host, a colon, then the port's decimal text, which holds no colon, so the colon after the host is the last one; `Atoi` reads a 64-bit port back from the text after it |
| Elasticache.ClientForNodes | elasticache.go:67-71 | one `host:port` address per node, in node order |
| Elasticache.GetNodeData | elasticache.go:98-110 | sends `stats`, then the command chosen by the version, and returns the second reply glued together; without version information it sends only `stats` and fails |
| Elasticache.NodeDataExchange | elasticache.go:98-110 | `stats` with CRLF is always sent first; it fails exactly when the stats reply gives no version, and then with a missing- or malformed-version error after sending only `stats`; otherwise it sends exactly one of the two discovery commands after `stats`; what is left unread is a suffix of the input |
| Elasticache.ClusterNodes | elasticache.go:112-134 | the result, the bytes sent and the lines consumed are those of the discovery run |
| Elasticache.Discovery | elasticache.go:112-133 | fails with the endpoint-not-set error exactly when the variable is empty, and then sends and reads nothing; with an endpoint, `stats` is sent first; what is left unread is a suffix of the input; every node found has a host free of `|` and a 64-bit port |
| Elasticache.New | elasticache.go:58-65 | fails exactly when discovery fails, with the same error; otherwise returns one address per discovered node |
| Elasticache.DiscoveryWithoutEndpoint | elasticache.go:113-116 | with no endpoint, nothing is sent and nothing is read |
| Elasticache.NodeDataFramed | elasticache.go:98-110 | an `END`-framed stats reply with a version line, then a framed node reply, gives the glued node reply and the command for that version |
| Elasticache.DiscoveryFramed | elasticache.go:98-133 | with an endpoint and well-framed replies, discovery parses exactly the node reply and leaves what follows unread |
| Elasticache.DiscoveryWithoutVersion | elasticache.go:99-102 | a stats reply without a version line stops discovery after `stats`, with that error |
| Elasticache.DiscoveryExample | elasticache.go:112-133 | the endpoint `foo` with a 1.4.14 server yields the three sample nodes after sending `stats` and `config get cluster` |
| Elasticache.HeaderWordRejected | elasticache.go:123-128 | a node reply whose first space-separated word has no `|` fails on that word |
| Elasticache.HeaderedReplyRejected | elasticache_test.go:23 | the `TestParseNodes` reply, with its `CONFIG cluster 0 25` header and count line, fails on the word `CONFIG` when `clusterNodes`' loop parses it |

## Left out

- Connecting and closing: `net.Dial` and `conn.Close` are not modelled. The connection is a parameter of `ClusterNodes`, and a dial failure is not an error the model produces.
- Reading the environment: `os.Getenv` is replaced by the variable's value, passed as a parameter.
- The memcache client: `memcache.New`, `Client.Set` and the `Item` copy are outside the model. `New` returns the address list that would be handed to `memcache.New`.
- Buffered reading: `bufio.Scanner`'s 64 KiB line limit and its read errors are not modelled. A read error ends the response, as end of input does. Bytes that the scanner buffered beyond `END` are not lost in the model. Lines are taken as already split, with their terminators removed.
- Write errors: the error from `fmt.Fprintf` is ignored, as in the code.
- Elasticache.ParseStats: the regular expression is written out as a predicate (`MatchVersionLine`). `\s` means space, tab, newline, form feed or carriage return. The pattern is anchored to the whole text, as without the multi-line flag.
- Versions.ParseVersion: accepts only dot-separated decimal segments. This is all that the `[0-9.]+` capture can hold. Pre-release and metadata suffixes, the `v` prefix and the 64-bit limit on segments of the version library are not modelled.
- Elasticache.ParseNodeLine: the code indexes `fields[1]` and `fields[2]` without a length check. An entry with fewer than three fields makes it panic; the model returns `MissingField` instead. Extra fields are ignored, as in the code.
- Elasticache.GetNodeData: the code drops the error from `parseStats` (the function is declared to return only a string). The model returns that error to `ClusterNodes`, which is what the `return nil, err` shows was meant.
- The code as written does not compile. The model takes the evident meaning in each case:
  - one `Node` type with `Host`, `IP` and `Port` (the first declaration, with its `URL` field, duplicates it);
  - `FindStringSubmatch` applied to `stats`, taking the first capture;
  - `version.NewVersion` for `versions.NewVersion`;
  - `parseNodeLine` returning a `Node`;
  - `clusterNodes` returning `nil` as its error on success.
- The test helper `parseNodeResult` is not defined in the code. `ParseNodeInfoExample` and `HeaderedReplyRejected` apply `clusterNodes`' own parse loop to the same data instead.
- Checking the node count or the configuration version in the `config get cluster` header is not done by the code, so it is not modelled. `HeaderedReplyRejected` shows what the code does with such a header.
- The address uses the node's host only. No fallback to the IP is made when the host is empty, because the code makes none.

## Findings

| source | as written | input that shows it | evidently intended | confidence | as-written member | corrected member |
|---|---|---|---|---|---|---|
| elasticache.go:84 | `remoteCommand` appends each reply line to the response with no separator. `parseStats` then matches `^STAT version ([0-9.]+)\s*$` against that whole text, without the multi-line flag. | A stats reply made of the lines `STAT pid 12345`, `STAT version 1.4.14`, `STAT uptime 42`, `END` is glued into `STAT pid 12345STAT version 1.4.14STAT uptime 42`. That text does not match, so discovery fails with no version information. | Look for the version on whichever reply line carries it, and pick the discovery command from that version. | high; not executed | Elasticache.StatsReplyAsWritten | Elasticache.ParseStatsLines |

The discovery run (`GetNodeData`, `NodeDataExchange`) uses the corrected
path. It reads the stats reply line by line (`RemoteCommandLines`), and
`ParseStatsLines` takes the first line that matches.
`ParseStatsLinesFirstMatch`, `StatsLineLegacy`, `StatsLineCurrent` and
`DiscoveryExample` state what that path delivers.

=== FILE: elasticache.dfy ===
/**
 * ElastiCache auto-discovery: ask the configuration endpoint for its
 * version with `stats`, send the discovery command that version
 * understands, and read the reply's `host|ip|port` entries into nodes,
 * from which the `host:port` addresses of the memcache client are made.
 */
module Elasticache {
  import opened Results
  import opened GoStrings
  import opened GoStrconv
  import opened Versions
  import opened Transport

  const StatsCommand := "stats"
  const NewCommand := "config get cluster"
  const OldCommand := "get AmazonElastiCache:cluster"
  /** The first server version that understands `NewCommand`. */
  const NewCommandAvailableVersion: Version := [1, 4, 14]
  const OutputEndMarker := "END"
  const CommandTerminator := "\r\n"
  /** What `VERSION_REGEX` requires in front of the captured version. */
  const StatVersionPrefix := "STAT version "
  const NodeSeparator := ' '
  const FieldSeparator := '|'

  /** One cache node of the cluster. */
  datatype Node = Node(host: string, ip: string, port: int)

  datatype Error =
    | EndpointNotSet
    | NoVersionInfo
    | MalformedVersion(text: string)
    | MissingField(entry: string)
    | BadPort(field: string, cause: NumError)

  /** What one run of the protocol returns, writes and leaves unread. */
  datatype Exchange<T> = Exchange(result: Result<T, Error>, sent: string, unread: seq<string>)

  // ---------------------------------------------------------------------
  // The configuration endpoint

  /** `elasticache()`, given the value of `ELASTICACHE_ENDPOINT`. */
  function LookupEndpoint(env: string): (r: Result<string, Error>)
    ensures r.Ok? <==> |env| > 0
    ensures r.Ok? ==> r.value == env
    ensures r.Err? ==> r.error == EndpointNotSet
  {
    if |env| == 0 then Err(EndpointNotSet) else Ok(env)
  }

  // ---------------------------------------------------------------------
  // Reading a reply up to `END`

  /** The lines of a reply: those before the first `END`, or all if none is. */
  function ResponseLines(lines: seq<string>): (body: seq<string>)
    ensures OutputEndMarker !in body
    ensures |body| <= |lines| && body == lines[..|body|]
    ensures |body| < |lines| ==> lines[|body|] == OutputEndMarker
  {
    if |lines| == 0 || lines[0] == OutputEndMarker then []
    else [lines[0]] + ResponseLines(lines[1..])
  }

  /** The lines left unread once the reply and its `END` have been read. */
  function AfterEnd(lines: seq<string>): (rest: seq<string>)
    ensures var n := |ResponseLines(lines)|; rest == if n < |lines| then lines[n + 1..] else []
    ensures IsSuffix(rest, lines)
  {
    if |lines| == 0 then []
    else if lines[0] == OutputEndMarker then lines[1..]
    else
      var n := |ResponseLines(lines[1..])|;
      assert n < |lines| - 1 ==> lines[1..][n + 1..] == lines[n + 2..];
      AfterEnd(lines[1..])
  }

  /** `rest` is what is left of `lines` once some leading lines have been read. */
  predicate IsSuffix(rest: seq<string>, lines: seq<string>)
  {
    |rest| <= |lines| && rest == lines[|lines| - |rest|..]
  }

  lemma SuffixTransitive(a: seq<string>, b: seq<string>, c: seq<string>)
    requires IsSuffix(a, b) && IsSuffix(b, c)
    ensures IsSuffix(a, c)
  {
    assert c[|c| - |b|..][|b| - |a|..] == c[|c| - |a|..];
  }

  /** A reply framed by `END` is read exactly, and what follows is left for later. */
  lemma FramedResponse(body: seq<string>, after: seq<string>)
    requires OutputEndMarker !in body
    ensures ResponseLines(body + [OutputEndMarker] + after) == body
    ensures AfterEnd(body + [OutputEndMarker] + after) == after
  {
    var lines := body + [OutputEndMarker] + after;
    assert lines[..|body|] == body;
    assert lines[|body|] == OutputEndMarker;
    var n := |ResponseLines(lines)|;
    if n < |body| {
      assert false;
    }
    if n > |body| {
      assert false;
    }
    assert lines[|body| + 1..] == after;
  }

  /** A reply that the server never ends is read to the end of the connection. */
  lemma UnterminatedResponse(lines: seq<string>)
    requires OutputEndMarker !in lines
    ensures ResponseLines(lines) == lines && AfterEnd(lines) == []
  {
  }

  /** What goes on the wire for `command`: the command and CRLF. */
  function Request(command: string): string
  {
    command + CommandTerminator
  }

  /**
   * A request is its command followed by CRLF, so a command without a
   * carriage return is read back whole: the first CR of the request ends it.
   */
  lemma RequestFramesCommand(command: string)
    ensures |Request(command)| == |command| + 2 && Request(command)[..|command|] == command
    ensures Request(command)[|command|..] == CommandTerminator
    ensures '\r' !in command ==> Split(Request(command), '\r') == [command, "\n"]
  {
    assert Request(command) == command + ['\r'] + "\n";
    SplitWithoutSep("\n", '\r');
    if '\r' !in command {
      SplitAtFirstSep(command, '\r', "\n");
    }
  }

  /**
   * `remoteCommand`: writes `command` and CRLF, then reads lines until one
   * is exactly `END` (or the server sends no more) and returns the lines
   * before it glued together with nothing between them.
   */
  method RemoteCommand(conn: Connection, command: string) returns (response: string)
    modifies conn
    ensures conn.sent == old(conn.sent) + Request(command)
    ensures response == Concat(ResponseLines(old(conn.unread)))
    ensures conn.unread == AfterEnd(old(conn.unread))
  {
    conn.Write(Request(command));
    response := "";
    while true
      invariant conn.sent == old(conn.sent) + Request(command)
      invariant Concat(ResponseLines(old(conn.unread))) == response + Concat(ResponseLines(conn.unread))
      invariant AfterEnd(old(conn.unread)) == AfterEnd(conn.unread)
      decreases |conn.unread|
    {
      ghost var before := conn.unread;
      var ok, line := conn.ReadLine();
      if !ok || line == OutputEndMarker {
        break;
      }
      assert ResponseLines(before) == [line] + ResponseLines(conn.unread);
      assert Concat([line] + ResponseLines(conn.unread)) == line + Concat(ResponseLines(conn.unread));
      AppendAssociative(response, line, Concat(ResponseLines(conn.unread)));
      response := response + line;
    }
  }

  /**
   * The same exchange as `RemoteCommand`, keeping the reply's lines apart:
   * the version line of a `stats` reply can only be told from its
   * neighbours this way.
   */
  method RemoteCommandLines(conn: Connection, command: string) returns (reply: seq<string>)
    modifies conn
    ensures conn.sent == old(conn.sent) + Request(command)
    ensures reply == ResponseLines(old(conn.unread))
    ensures conn.unread == AfterEnd(old(conn.unread))
  {
    conn.Write(Request(command));
    reply := [];
    while true
      invariant conn.sent == old(conn.sent) + Request(command)
      invariant ResponseLines(old(conn.unread)) == reply + ResponseLines(conn.unread)
      invariant AfterEnd(old(conn.unread)) == AfterEnd(conn.unread)
      decreases |conn.unread|
    {
      ghost var before := conn.unread;
      var ok, line := conn.ReadLine();
      if !ok || line == OutputEndMarker {
        break;
      }
      assert ResponseLines(before) == [line] + ResponseLines(conn.unread);
      reply := reply + [line];
    }
  }

  // ---------------------------------------------------------------------
  // The server version, from a `stats` reply

  /** `\s` in Go's regular expressions. */
  predicate IsRegexSpace(c: char)
  {
    c == ' ' || c == '\t' || c == '\n' || c == '\U{000C}' || c == '\r'
  }

  /** `[0-9.]`. */
  predicate IsVersionChar(c: char)
  {
    IsDigit(c) || c == '.'
  }

  /** The length of the longest prefix of `s` made of `[0-9.]`. */
  function VersionRun(s: string): (k: nat)
    ensures k <= |s|
    ensures forall i :: 0 <= i < k ==> IsVersionChar(s[i])
    ensures k < |s| ==> !IsVersionChar(s[k])
  {
    if |s| == 0 || !IsVersionChar(s[0]) then 0 else 1 + VersionRun(s[1..])
  }

  /** A version run ends where the first non-version character is. */
  lemma {:induction false} VersionRunOf(version: string, rest: string)
    requires forall i :: 0 <= i < |version| ==> IsVersionChar(version[i])
    requires |rest| > 0 ==> !IsVersionChar(rest[0])
    ensures VersionRun(version + rest) == |version|
    decreases |version|
  {
    if |version| > 0 {
      assert (version + rest)[1..] == version[1..] + rest;
      VersionRunOf(version[1..], rest);
    }
  }

  /**
   * `VERSION_REGEX`, `^STAT version ([0-9.]+)\s*$`, matched against a whole
   * text: the captured group when the text matches. The group is the whole
   * run of digits and dots, since what follows it may only be white space.
   */
  function MatchVersionLine(text: string): (capture: Option<string>)
    ensures capture.Some? ==>
      var n := |StatVersionPrefix|;
      var c := capture.value;
      && |c| > 0
      && (forall i :: 0 <= i < |c| ==> IsVersionChar(c[i]))
      && n + |c| <= |text|
      && text[..n] == StatVersionPrefix
      && text[n..n + |c|] == c
      && (forall i :: n + |c| <= i < |text| ==> IsRegexSpace(text[i]))
  {
    var n := |StatVersionPrefix|;
    if |text| < n || text[..n] != StatVersionPrefix then None
    else
      var body := text[n..];
      var k := VersionRun(body);
      if k > 0 && forall i :: k <= i < |body| ==> IsRegexSpace(body[i]) then
        VersionCapture(text, k);
        Some(body[..k])
      else None
  }

  /** The shape of a text whose part after the prefix is `k` version characters and then white space. */
  lemma VersionCapture(text: string, k: nat)
    requires |StatVersionPrefix| + k <= |text| && text[..|StatVersionPrefix|] == StatVersionPrefix
    requires forall i :: 0 <= i < k ==> IsVersionChar(text[|StatVersionPrefix|..][i])
    requires forall i :: k <= i < |text| - |StatVersionPrefix| ==> IsRegexSpace(text[|StatVersionPrefix|..][i])
    ensures var n := |StatVersionPrefix|;
      var c := text[n..][..k];
      && (forall i :: 0 <= i < |c| ==> IsVersionChar(c[i]))
      && text[n..n + |c|] == c
      && (forall i :: n + |c| <= i < |text| ==> IsRegexSpace(text[i]))
  {
    var n := |StatVersionPrefix|;
    var body := text[n..];
    assert forall i :: n + k <= i < |text| ==> text[i] == body[i - n];
    assert text[n..n + k] == body[..k];
  }

  /** Every text of the regular expression's language matches, capturing its version part. */
  lemma MatchVersionLineComplete(version: string, space: string)
    requires |version| > 0 && forall i :: 0 <= i < |version| ==> IsVersionChar(version[i])
    requires forall i :: 0 <= i < |space| ==> IsRegexSpace(space[i])
    ensures MatchVersionLine(StatVersionPrefix + version + space) == Some(version)
  {
    var text := StatVersionPrefix + version + space;
    var n := |StatVersionPrefix|;
    assert text[..n] == StatVersionPrefix;
    var body := text[n..];
    assert body == version + space;
    VersionRunOf(version, space);
    var k := VersionRun(body);
    assert forall i :: k <= i < |body| ==> body[i] == space[i - k];
    assert body[..k] == version;
  }

  /**
   * `parseStats`: the version captured by `VERSION_REGEX` from `stats`, read
   * as a version. No match is `NoVersionInfo`; a capture such as `1..4`
   * that is not a version is `MalformedVersion`.
   */
  function ParseStats(stats: string): (r: Result<Version, Error>)
    ensures r == Err(NoVersionInfo) <==> MatchVersionLine(stats) == None
    ensures r.Ok? ==> MatchVersionLine(stats).Some? && ParseVersion(MatchVersionLine(stats).value) == Some(r.value)
    ensures MatchVersionLine(stats).Some? && ParseVersion(MatchVersionLine(stats).value) == None
            ==> r == Err(MalformedVersion(MatchVersionLine(stats).value))
  {
    match MatchVersionLine(stats)
    case None => Err(NoVersionInfo)
    case Some(text) =>
      match ParseVersion(text)
      case None => Err(MalformedVersion(text))
      case Some(v) => Ok(v)
  }

  /** The version of a `stats` reply, looked for line by line: the first line that matches decides. */
  function ParseStatsLines(reply: seq<string>): (r: Result<Version, Error>)
    ensures r == Err(NoVersionInfo) <==> forall i :: 0 <= i < |reply| ==> MatchVersionLine(reply[i]) == None
    ensures r.Err? ==> r.error.NoVersionInfo? || r.error.MalformedVersion?
  {
    if |reply| == 0 then Err(NoVersionInfo)
    else if MatchVersionLine(reply[0]).Some? then ParseStats(reply[0])
    else ParseStatsLines(reply[1..])
  }

  /** The first line of a reply that carries a version decides the result. */
  lemma {:induction false} ParseStatsLinesFirstMatch(reply: seq<string>, k: nat)
    requires k < |reply| && MatchVersionLine(reply[k]).Some?
    requires forall j :: 0 <= j < k ==> MatchVersionLine(reply[j]) == None
    ensures ParseStatsLines(reply) == ParseStats(reply[k])
    decreases k
  {
    if k > 0 {
      ParseStatsLinesFirstMatch(reply[1..], k - 1);
    }
  }

  /**
   * The stats text that `getNodeData` hands to `parseStats` is the reply's
   * lines glued together. Unless the first line alone already begins with
   * `STAT version `, the anchored expression cannot match it, wherever the
   * version line is.
   */
  lemma ConcatenatedStatsMissVersion(reply: seq<string>)
    requires |reply| >= 1 && |reply[0]| >= |StatVersionPrefix|
    requires reply[0][..|StatVersionPrefix|] != StatVersionPrefix
    ensures ParseStats(Concat(reply)) == Err(NoVersionInfo)
  {
    var n := |StatVersionPrefix|;
    assert Concat(reply)[..n] == reply[0][..n];
  }

  /** A stats reply that starts with the process id, as servers send it. */
  const SampleStatsReply: seq<string> := ["STAT pid 12345", "STAT version 1.4.14", "STAT uptime 42"]

  /** The version line of the sample is found line by line, and missed once the lines are glued. */
  lemma StatsReplyAsWritten(reply: seq<string>)
    requires reply == SampleStatsReply
    ensures ParseStats(Concat(reply)) == Err(NoVersionInfo)
    ensures ParseStatsLines(reply) == Ok([1, 4, 14])
  {
    SampleFirstLine(reply);
    ConcatenatedStatsMissVersion(reply);
    SampleVersionLine(reply);
    ParseStatsLinesFirstMatch(reply, 1);
  }

  lemma SampleFirstLine(reply: seq<string>)
    requires reply == SampleStatsReply
    ensures |reply[0]| >= |StatVersionPrefix| && reply[0][..|StatVersionPrefix|] != StatVersionPrefix
    ensures MatchVersionLine(reply[0]) == None
  {
    assert reply[0][5] == 'p' && StatVersionPrefix[5] == 'v';
    NotVersionLine(reply[0]);
  }

  lemma SampleVersionLine(reply: seq<string>)
    requires reply == SampleStatsReply
    ensures MatchVersionLine(reply[1]).Some? && ParseStats(reply[1]) == Ok([1, 4, 14])
  {
    var text := reply[1][|StatVersionPrefix|..];
    assert reply[1] == StatVersionPrefix + text + "";
    ThreeSegmentVersion(text, 1, 4, 14);
    StatsLineOf(reply[1], text, "", [1, 4, 14]);
  }

  /** A version line whose capture reads as `v` yields `v`. */
  lemma StatsLineOf(line: string, text: string, space: string, v: Version)
    requires forall i :: 0 <= i < |space| ==> IsRegexSpace(space[i])
    requires line == StatVersionPrefix + text + space && ParseVersion(text) == Some(v)
    ensures MatchVersionLine(line).Some? && ParseStats(line) == Ok(v)
  {
    ParsedVersionChars(text);
    MatchVersionLineComplete(text, space);
  }

  /** Every text that reads as a version fits the `[0-9.]+` capture. */
  lemma ParsedVersionChars(text: string)
    requires ParseVersion(text).Some?
    ensures |text| > 0 && forall i :: 0 <= i < |text| ==> IsVersionChar(text[i])
  {
    var parts := Split(text, '.');
    assert forall j :: 0 <= j < |parts| ==> IsSegmentText(parts[j]);
    JoinedDigitsChars(parts);
  }

  /** A line that does not start with `STAT version ` is not a version line. */
  lemma NotVersionLine(line: string)
    requires !(|line| >= |StatVersionPrefix| && line[..|StatVersionPrefix|] == StatVersionPrefix)
    ensures MatchVersionLine(line) == None
  {
  }

  /** A stats line for version `v`, in canonical form and with trailing white space, yields `v`. */
  lemma StatsLineVersion(v: Version, space: string)
    requires |v| >= 1
    requires forall i :: 0 <= i < |space| ==> IsRegexSpace(space[i])
    ensures ParseStats(StatVersionPrefix + FormatVersion(v) + space) == Ok(v)
  {
    var text := FormatVersion(v);
    ParseFormatVersion(v);
    VersionTextChars(v);
    MatchVersionLineComplete(text, space);
  }

  /** Canonical version text is made of `[0-9.]` and is not empty. */
  lemma VersionTextChars(v: Version)
    requires |v| >= 1
    ensures |FormatVersion(v)| > 0
    ensures forall i :: 0 <= i < |FormatVersion(v)| ==> IsVersionChar(FormatVersion(v)[i])
  {
    SegmentTextsAt(v);
    JoinedDigitsChars(SegmentTexts(v));
  }

  lemma {:induction false} JoinedDigitsChars(parts: seq<string>)
    requires |parts| >= 1
    requires forall j :: 0 <= j < |parts| ==> |parts[j]| >= 1 && AllDigits(parts[j])
    ensures |Join(parts, '.')| > 0
    ensures forall i :: 0 <= i < |Join(parts, '.')| ==> IsVersionChar(Join(parts, '.')[i])
    decreases |parts|
  {
    if |parts| > 1 {
      JoinedDigitsChars(parts[1..]);
      var rest := Join(parts[1..], '.');
      var s := parts[0] + ['.'] + rest;
      forall i | 0 <= i < |s| ensures IsVersionChar(s[i]) {
        if i < |parts[0]| {
          assert s[i] == parts[0][i];
        } else if i > |parts[0]| {
          assert s[i] == rest[i - |parts[0]| - 1];
        }
      }
    }
  }

  // ---------------------------------------------------------------------
  // Choosing the discovery command

  /** The discovery command a server of version `v` understands. */
  function DiscoveryCommand(v: Version): (command: string)
    ensures command == NewCommand || command == OldCommand
    ensures command == NewCommand <==> Compare(NewCommandAvailableVersion, v) <= 0
  {
    if LessThan(v, NewCommandAvailableVersion) then OldCommand else NewCommand
  }

  /** 1.4.14 is the first version sent `config get cluster`; versions compare by number. */
  lemma DiscoveryCommandBoundary()
    ensures DiscoveryCommand([1, 4, 13]) == OldCommand
    ensures DiscoveryCommand([1, 4, 14]) == NewCommand
    ensures DiscoveryCommand([1, 4, 14, 0]) == NewCommand
    ensures DiscoveryCommand([1, 4]) == OldCommand
    ensures DiscoveryCommand([1, 10]) == NewCommand
    ensures DiscoveryCommand([0, 99, 99]) == OldCommand
  {
    CompareFirstDifference([1, 4, 13], NewCommandAvailableVersion, 2);
    CompareFirstDifference([1, 4, 14], NewCommandAvailableVersion, 3);
    CompareFirstDifference([1, 4, 14, 0], NewCommandAvailableVersion, 4);
    CompareFirstDifference([1, 4], NewCommandAvailableVersion, 2);
    CompareFirstDifference([1, 10], NewCommandAvailableVersion, 1);
    CompareFirstDifference([0, 99, 99], NewCommandAvailableVersion, 0);
  }

  /** Upgrading a server never takes it back to the legacy command. */
  lemma DiscoveryCommandMonotone(v: Version, w: Version)
    requires !LessThan(w, v)
    ensures DiscoveryCommand(v) == NewCommand ==> DiscoveryCommand(w) == NewCommand
    ensures DiscoveryCommand(w) == OldCommand ==> DiscoveryCommand(v) == OldCommand
  {
    if !LessThan(v, NewCommandAvailableVersion) {
      CompareAntisymmetric(w, v);
      CompareAntisymmetric(v, NewCommandAvailableVersion);
      CompareAntisymmetric(w, NewCommandAvailableVersion);
      CompareTransitive(NewCommandAvailableVersion, v, w);
    }
  }

  /** The version line of a 1.4.13 server: it is sent the legacy command. */
  lemma StatsLineLegacy(line: string)
    requires line == StatVersionPrefix + "1.4.13"
    ensures ParseStats(line) == Ok([1, 4, 13])
    ensures DiscoveryCommand([1, 4, 13]) == OldCommand
  {
    var text := line[|StatVersionPrefix|..];
    assert line == StatVersionPrefix + text + "";
    ThreeSegmentVersion(text, 1, 4, 13);
    StatsLineOf(line, text, "", [1, 4, 13]);
    DiscoveryCommandBoundary();
  }

  /** The version line of a 1.4.14 server, with a stray CR: it is sent `config get cluster`. */
  lemma StatsLineCurrent(line: string)
    requires line == StatVersionPrefix + "1.4.14\r"
    ensures ParseStats(line) == Ok([1, 4, 14])
    ensures DiscoveryCommand([1, 4, 14]) == NewCommand
  {
    var n := |StatVersionPrefix|;
    var text, space := line[n..|line| - 1], line[|line| - 1..];
    assert line == StatVersionPrefix + text + space;
    ThreeSegmentVersion(text, 1, 4, 14);
    StatsLineOf(line, text, space, [1, 4, 14]);
    DiscoveryCommandBoundary();
  }

  // ---------------------------------------------------------------------
  // Node entries

  /** The `host|ip|port` entry that describes `n`. */
  function FormatNodeLine(n: Node): string
  {
    Join([n.host, n.ip, Itoa(n.port)], FieldSeparator)
  }

  lemma FormatNodeLineText(n: Node)
    ensures FormatNodeLine(n) == n.host + [FieldSeparator] + n.ip + [FieldSeparator] + Itoa(n.port)
  {
    var fields := [n.host, n.ip, Itoa(n.port)];
    assert fields[1..] == [n.ip, Itoa(n.port)] && fields[1..][1..] == [Itoa(n.port)];
    assert Join([n.ip, Itoa(n.port)], FieldSeparator) == n.ip + [FieldSeparator] + Itoa(n.port);
    assert Join(fields, FieldSeparator) == n.host + [FieldSeparator] + (n.ip + [FieldSeparator] + Itoa(n.port));
  }

  /**
   * `parseNodeLine`: fields 0, 1 and 2 of the `|`-separated entry are the
   * host, the IP and the port. Any fields after the third are ignored. An
   * entry with fewer than three fields has no port to read.
   */
  function ParseNodeLine(nodeData: string): (r: Result<Node, Error>)
    ensures r.Ok? ==> FieldSeparator !in r.value.host && FieldSeparator !in r.value.ip
    ensures r.Ok? ==> MinInt64 <= r.value.port <= MaxInt64
    ensures |Split(nodeData, FieldSeparator)| < 3 <==> r == Err(MissingField(nodeData))
    ensures var fields := Split(nodeData, FieldSeparator);
            |fields| >= 3 && Atoi(fields[2]).Err? ==> r == Err(BadPort(fields[2], Atoi(fields[2]).error))
    ensures var fields := Split(nodeData, FieldSeparator);
            r.Ok? ==> |fields| >= 3 && r.value == Node(fields[0], fields[1], r.value.port) && Atoi(fields[2]) == Ok(r.value.port)
    ensures var fields := Split(nodeData, FieldSeparator);
            |fields| >= 3 && Atoi(fields[2]).Ok? ==> r == Ok(Node(fields[0], fields[1], Atoi(fields[2]).value))
  {
    var fields := Split(nodeData, FieldSeparator);
    if |fields| < 3 then Err(MissingField(nodeData))
    else
      match Atoi(fields[2])
      case Err(e) => Err(BadPort(fields[2], e))
      case Ok(port) => Ok(Node(fields[0], fields[1], port))
  }

  /** Round trip: the entry written for a node reads back as that node. */
  lemma ParseNodeLineRoundTrip(n: Node)
    requires FieldSeparator !in n.host && FieldSeparator !in n.ip
    requires MinInt64 <= n.port <= MaxInt64
    ensures ParseNodeLine(FormatNodeLine(n)) == Ok(n)
  {
    ItoaAlphabet(n.port, FieldSeparator);
    SplitJoin([n.host, n.ip, Itoa(n.port)], FieldSeparator);
    AtoiItoa(n.port);
  }

  /** Fields after the port do not change the node. */
  lemma ParseNodeLineExtraFields(n: Node, extra: string)
    requires FieldSeparator !in n.host && FieldSeparator !in n.ip
    requires MinInt64 <= n.port <= MaxInt64
    ensures ParseNodeLine(FormatNodeLine(n) + [FieldSeparator] + extra) == Ok(n)
  {
    ItoaAlphabet(n.port, FieldSeparator);
    FormatNodeLineText(n);
    var tail := Itoa(n.port) + [FieldSeparator] + extra;
    var mid := n.ip + [FieldSeparator] + tail;
    assert FormatNodeLine(n) + [FieldSeparator] + extra == n.host + [FieldSeparator] + mid;
    SplitAtFirstSep(n.host, FieldSeparator, mid);
    SplitAtFirstSep(n.ip, FieldSeparator, tail);
    SplitAtFirstSep(Itoa(n.port), FieldSeparator, extra);
    AtoiItoa(n.port);
  }

  /** A port field that `Atoi` rejects makes the entry fail with `Atoi`'s error. */
  lemma ParseNodeLineBadPort(host: string, ip: string, port: string)
    requires FieldSeparator !in host && FieldSeparator !in ip && FieldSeparator !in port
    requires Atoi(port).Err?
    ensures ParseNodeLine(Join([host, ip, port], FieldSeparator)) == Err(BadPort(port, Atoi(port).error))
  {
    SplitJoin([host, ip, port], FieldSeparator);
  }

  /** An entry with fewer than three fields fails, naming the entry. */
  lemma ParseNodeLineShort(host: string, ip: string)
    requires FieldSeparator !in host && FieldSeparator !in ip
    ensures ParseNodeLine(host) == Err(MissingField(host))
    ensures ParseNodeLine(host + [FieldSeparator] + ip) == Err(MissingField(host + [FieldSeparator] + ip))
  {
    SplitWithoutSep(host, FieldSeparator);
    SplitJoin([host, ip], FieldSeparator);
  }

  /** `"host|foo|1"` is the node host, foo, 1; `"host|foo"` lacks its port. */
  lemma ParseNodeLineExamples(entry: string, short: string)
    requires entry == "host|foo|1" && short == "host|foo"
    ensures ParseNodeLine(entry) == Ok(Node("host", "foo", 1))
    ensures ParseNodeLine(short) == Err(MissingField(short))
  {
    DigitPortEntry(entry, "host", "foo", 1);
    var host, ip := short[..4], short[5..];
    assert short == host + [FieldSeparator] + ip;
    ParseNodeLineShort(host, ip);
  }

  // ---------------------------------------------------------------------
  // The node list

  /**
   * The nodes of a list of entries, in entry order; the first entry that
   * does not parse fails the whole list.
   */
  function ParseTokens(tokens: seq<string>): (r: Result<seq<Node>, Error>)
    ensures r.Ok? <==> forall i :: 0 <= i < |tokens| ==> ParseNodeLine(tokens[i]).Ok?
    ensures r.Ok? ==> |r.value| == |tokens|
    ensures r.Ok? ==> forall i :: 0 <= i < |tokens| ==> ParseNodeLine(tokens[i]) == Ok(r.value[i])
    ensures r.Err? ==> r.error.MissingField? || r.error.BadPort?
  {
    if |tokens| == 0 then Ok([])
    else
      match ParseNodeLine(tokens[0])
      case Err(e) => Err(e)
      case Ok(n) =>
        match ParseTokens(tokens[1..])
        case Err(e) => Err(e)
        case Ok(rest) =>
          assert forall i :: 1 <= i < |tokens| ==> tokens[i] == tokens[1..][i - 1];
          Ok([n] + rest)
  }

  /** A failing list reports the error of its first failing entry. */
  lemma {:induction false} ParseTokensFirstError(tokens: seq<string>, k: nat)
    requires k < |tokens| && ParseNodeLine(tokens[k]).Err?
    requires forall j :: 0 <= j < k ==> ParseNodeLine(tokens[j]).Ok?
    ensures ParseTokens(tokens) == Err(ParseNodeLine(tokens[k]).error)
    decreases k
  {
    if k > 0 {
      ParseTokensFirstError(tokens[1..], k - 1);
    }
  }

  /**
   * The node-list loop of `clusterNodes`: splits the node data on single
   * spaces and parses each entry in turn, stopping at the first error.
   */
  method ParseNodeInfo(nodeInfo: string) returns (r: Result<seq<Node>, Error>)
    ensures r == ParseTokens(Split(nodeInfo, NodeSeparator))
  {
    var tokens := Split(nodeInfo, NodeSeparator);
    var nodes: seq<Node> := [];
    var i := 0;
    assert tokens[i..] == tokens;
    PrependNothing(ParseTokens(tokens));
    while i < |tokens|
      invariant 0 <= i <= |tokens|
      invariant ParseTokens(tokens) == PrependNodes(nodes, ParseTokens(tokens[i..]))
    {
      var n := ParseNodeLine(tokens[i]);
      ParseTokensStep(tokens, i, nodes);
      if n.Err? {
        return Err(n.error);
      }
      nodes := nodes + [n.value];
      i := i + 1;
    }
    assert tokens[i..] == [];
    assert nodes + [] == nodes;
    return Ok(nodes);
  }

  /** The loop of `ParseNodeInfo` keeps its invariant, or stops at the first bad entry. */
  lemma ParseTokensStep(tokens: seq<string>, i: nat, nodes: seq<Node>)
    requires i < |tokens|
    requires ParseTokens(tokens) == PrependNodes(nodes, ParseTokens(tokens[i..]))
    ensures ParseNodeLine(tokens[i]).Err? ==> ParseTokens(tokens) == Err(ParseNodeLine(tokens[i]).error)
    ensures ParseNodeLine(tokens[i]).Ok? ==>
      ParseTokens(tokens) == PrependNodes(nodes + [ParseNodeLine(tokens[i]).value], ParseTokens(tokens[i + 1..]))
  {
    ParseTokensSuffix(tokens, i);
    if ParseNodeLine(tokens[i]).Ok? {
      PrependNodesTwice(nodes, [ParseNodeLine(tokens[i]).value], ParseTokens(tokens[i + 1..]));
    }
  }

  lemma PrependNothing(r: Result<seq<Node>, Error>)
    ensures PrependNodes([], r) == r
  {
    if r.Ok? {
      assert [] + r.value == r.value;
    }
  }

  /** `nodes` put in front of the nodes of a list that parsed, or the list's error. */
  function PrependNodes(nodes: seq<Node>, r: Result<seq<Node>, Error>): Result<seq<Node>, Error>
  {
    match r
    case Ok(rest) => Ok(nodes + rest)
    case Err(e) => Err(e)
  }

  /** One step of `ParseTokens` on a suffix of the entries. */
  lemma ParseTokensSuffix(tokens: seq<string>, i: nat)
    requires i < |tokens|
    ensures ParseNodeLine(tokens[i]).Err? ==> ParseTokens(tokens[i..]) == Err(ParseNodeLine(tokens[i]).error)
    ensures ParseNodeLine(tokens[i]).Ok? ==>
      ParseTokens(tokens[i..]) == PrependNodes([ParseNodeLine(tokens[i]).value], ParseTokens(tokens[i + 1..]))
  {
    assert tokens[i..][0] == tokens[i];
    assert tokens[i..][1..] == tokens[i + 1..];
  }

  lemma PrependNodesTwice(a: seq<Node>, b: seq<Node>, r: Result<seq<Node>, Error>)
    ensures PrependNodes(a, PrependNodes(b, r)) == PrependNodes(a + b, r)
  {
    if r.Ok? {
      assert a + (b + r.value) == (a + b) + r.value;
    }
  }

  /** The space-separated entries of `nodes`, as a server lists them. */
  function FormatNodeInfo(nodes: seq<Node>): string
  {
    Join(EntryTexts(nodes), NodeSeparator)
  }

  function EntryTexts(nodes: seq<Node>): seq<string>
  {
    if |nodes| == 0 then [] else [FormatNodeLine(nodes[0])] + EntryTexts(nodes[1..])
  }

  /** A node whose fields survive being written as an entry of a node list. */
  predicate Listable(n: Node)
  {
    && FieldSeparator !in n.host && FieldSeparator !in n.ip
    && NodeSeparator !in n.host && NodeSeparator !in n.ip
    && MinInt64 <= n.port <= MaxInt64
  }

  lemma ListableEntry(n: Node)
    requires Listable(n)
    ensures NodeSeparator !in FormatNodeLine(n)
    ensures ParseNodeLine(FormatNodeLine(n)) == Ok(n)
  {
    ItoaAlphabet(n.port, NodeSeparator);
    JoinAvoids([n.host, n.ip, Itoa(n.port)], FieldSeparator, NodeSeparator);
    ParseNodeLineRoundTrip(n);
  }

  lemma {:induction false} EntryTextsAt(nodes: seq<Node>)
    ensures |EntryTexts(nodes)| == |nodes|
    ensures forall i :: 0 <= i < |nodes| ==> EntryTexts(nodes)[i] == FormatNodeLine(nodes[i])
    decreases |nodes|
  {
    if |nodes| > 0 {
      var texts, rest := EntryTexts(nodes), EntryTexts(nodes[1..]);
      EntryTextsAt(nodes[1..]);
      assert texts == [FormatNodeLine(nodes[0])] + rest;
      forall i | 0 < i < |nodes|
        ensures texts[i] == FormatNodeLine(nodes[i])
      {
        assert texts[i] == rest[i - 1] && nodes[i] == nodes[1..][i - 1];
      }
    }
  }

  /** Round trip: a non-empty node list, written out, is read back in the same order. */
  lemma NodeInfoRoundTrip(nodes: seq<Node>)
    requires |nodes| >= 1
    requires forall i :: 0 <= i < |nodes| ==> Listable(nodes[i])
    ensures ParseTokens(Split(FormatNodeInfo(nodes), NodeSeparator)) == Ok(nodes)
  {
    var tokens := EntryTexts(nodes);
    ListedEntries(nodes);
    SplitJoin(tokens, NodeSeparator);
    ParseTokensAll(tokens, nodes);
  }

  /** Each entry written for a listable node is free of spaces and parses back to it. */
  lemma ListedEntries(nodes: seq<Node>)
    requires forall i :: 0 <= i < |nodes| ==> Listable(nodes[i])
    ensures |EntryTexts(nodes)| == |nodes|
    ensures forall i :: 0 <= i < |nodes| ==> NodeSeparator !in EntryTexts(nodes)[i]
    ensures forall i :: 0 <= i < |nodes| ==> ParseNodeLine(EntryTexts(nodes)[i]) == Ok(nodes[i])
  {
    EntryTextsAt(nodes);
    forall i | 0 <= i < |nodes|
      ensures NodeSeparator !in EntryTexts(nodes)[i] && ParseNodeLine(EntryTexts(nodes)[i]) == Ok(nodes[i])
    {
      ListableEntry(nodes[i]);
    }
  }

  /** Entries that all parse give exactly their nodes, in order. */
  lemma ParseTokensAll(tokens: seq<string>, nodes: seq<Node>)
    requires |tokens| == |nodes|
    requires forall i :: 0 <= i < |tokens| ==> ParseNodeLine(tokens[i]) == Ok(nodes[i])
    ensures ParseTokens(tokens) == Ok(nodes)
  {
    var r := ParseTokens(tokens);
    assert r.Ok?;
    assert r.value == nodes;
  }

  /** Joining never introduces a character other than the separator. */
  lemma {:induction false} JoinAvoids(parts: seq<string>, sep: char, c: char)
    requires c != sep
    requires forall i :: 0 <= i < |parts| ==> c !in parts[i]
    ensures c !in Join(parts, sep)
    decreases |parts|
  {
    if |parts| > 1 {
      JoinAvoids(parts[1..], sep, c);
    }
  }

  /** Node data with no entries at all is an entry without fields, and fails. */
  lemma EmptyNodeInfo()
    ensures ParseTokens(Split("", NodeSeparator)) == Err(MissingField(""))
  {
  }

  /** The node list of a three-node cluster, as servers list it, and its nodes. */
  const SampleNodeInfo := "host|foo|1 host|bar|2 host|baz|3"
  const SampleEntries := ["host|foo|1", "host|bar|2", "host|baz|3"]
  const SampleNodes := [Node("host", "foo", 1), Node("host", "bar", 2), Node("host", "baz", 3)]

  /** The sample list yields three nodes, ports 1, 2, 3 in that order. */
  lemma ParseNodeInfoExample()
    ensures ParseTokens(Split(SampleNodeInfo, NodeSeparator)) == Ok(SampleNodes)
  {
    SampleNodeInfoTokens();
    SampleEntry(0);
    SampleEntry(1);
    SampleEntry(2);
    ParseThreeTokens(SampleEntries[0], SampleEntries[1], SampleEntries[2],
                     SampleNodes[0], SampleNodes[1], SampleNodes[2]);
  }

  lemma SampleNodeInfoTokens()
    ensures Split(SampleNodeInfo, NodeSeparator) == SampleEntries
  {
    var e := SampleEntries;
    SplitThree(SampleNodeInfo, e[0], e[1], e[2], NodeSeparator);
  }

  lemma SplitThree(s: string, a: string, b: string, c: string, sep: char)
    requires sep !in a && sep !in b && sep !in c
    requires s == a + [sep] + b + [sep] + c
    ensures Split(s, sep) == [a, b, c]
  {
    var parts := [a, b, c];
    assert parts[1..] == [b, c] && parts[1..][1..] == [c];
    assert Join([b, c], sep) == b + [sep] + c;
    assert Join(parts, sep) == s;
    SplitJoin(parts, sep);
  }

  lemma SampleEntry(k: nat)
    requires k < 3
    ensures ParseNodeLine(SampleEntries[k]) == Ok(SampleNodes[k])
  {
    var n := SampleNodes[k];
    DigitPortEntry(SampleEntries[k], n.host, n.ip, n.port);
  }

  /** An entry whose port is a single digit. */
  lemma DigitPortEntry(entry: string, host: string, ip: string, port: nat)
    requires port < 10 && FieldSeparator !in host && FieldSeparator !in ip
    requires entry == host + [FieldSeparator] + ip + [FieldSeparator] + [DigitChar(port)]
    ensures ParseNodeLine(entry) == Ok(Node(host, ip, port))
  {
    var n := Node(host, ip, port);
    assert Itoa(port) == [DigitChar(port)];
    FormatNodeLineText(n);
    ParseNodeLineRoundTrip(n);
  }

  lemma ParseThreeTokens(a: string, b: string, c: string, x: Node, y: Node, z: Node)
    requires ParseNodeLine(a) == Ok(x) && ParseNodeLine(b) == Ok(y) && ParseNodeLine(c) == Ok(z)
    ensures ParseTokens([a, b, c]) == Ok([x, y, z])
  {
    var r := ParseTokens([a, b, c]);
    assert r.Ok?;
    assert r.value == [x, y, z];
  }

  // ---------------------------------------------------------------------
  // Client addresses

  /** The address `clientForNodes` gives the memcache client for `n`: `host:port`. */
  function NodeURL(n: Node): (url: string)
    ensures |url| > |n.host| && url[..|n.host|] == n.host && url[|n.host|] == ':'
    ensures ':' !in url[|n.host| + 1..] && url[|n.host| + 1..] == Itoa(n.port)
    ensures MinInt64 <= n.port <= MaxInt64 ==> Atoi(url[|n.host| + 1..]) == Ok(n.port)
  {
    ItoaAlphabet(n.port, ':');
    var url := n.host + ":" + Itoa(n.port);
    assert url[..|n.host|] == n.host && url[|n.host|] == ':';
    assert url[|n.host| + 1..] == Itoa(n.port);
    if MinInt64 <= n.port <= MaxInt64 then AtoiItoa(n.port); url else url
  }

  /**
   * An address names its node's host and port and nothing else: it can be
   * split back into them, and two nodes share an address exactly when they
   * share host and port, whatever their IPs.
   */
  lemma NodeURLRoundTrip(n: Node)
    requires ':' !in n.host && MinInt64 <= n.port <= MaxInt64
    ensures Split(NodeURL(n), ':') == [n.host, Itoa(n.port)]
    ensures Atoi(Split(NodeURL(n), ':')[1]) == Ok(n.port)
  {
    ItoaAlphabet(n.port, ':');
    SplitJoin([n.host, Itoa(n.port)], ':');
    AtoiItoa(n.port);
  }

  lemma NodeURLIdentifiesHostPort(a: Node, b: Node)
    ensures NodeURL(a) == NodeURL(b) <==> a.host == b.host && a.port == b.port
  {
    if NodeURL(a) == NodeURL(b) {
      // the colon after each host is the last colon of the address
      assert |a.host| == |b.host|;
      ItoaInjective(a.port, b.port);
    }
  }

  /**
   * `clientForNodes`: one address per node, in node order; these are the
   * servers handed to `memcache.New`.
   */
  method ClientForNodes(nodes: seq<Node>) returns (urls: seq<string>)
    ensures |urls| == |nodes|
    ensures forall i :: 0 <= i < |nodes| ==> urls[i] == NodeURL(nodes[i])
  {
    urls := [];
    for i := 0 to |nodes|
      invariant |urls| == i
      invariant forall j :: 0 <= j < i ==> urls[j] == NodeURL(nodes[j])
    {
      urls := urls + [NodeURL(nodes[i])];
    }
  }

  // ---------------------------------------------------------------------
  // The whole discovery exchange

  /**
   * `getNodeData` on a connection whose server will send `incoming`: ask for
   * `stats`, find the version, then ask with the command that version
   * understands and return that reply.
   */
  function NodeDataExchange(incoming: seq<string>): (e: Exchange<string>)
    ensures |e.sent| >= |Request(StatsCommand)| && e.sent[..|Request(StatsCommand)|] == Request(StatsCommand)
    ensures e.result.Err? <==> ParseStatsLines(ResponseLines(incoming)).Err?
    ensures e.result.Err? ==> e.sent == Request(StatsCommand) && (e.result.error.NoVersionInfo? || e.result.error.MalformedVersion?)
    ensures e.result.Ok? ==>
      e.sent == Request(StatsCommand) + Request(NewCommand) || e.sent == Request(StatsCommand) + Request(OldCommand)
    ensures IsSuffix(e.unread, incoming)
  {
    var statsSent := Request(StatsCommand);
    var afterStats := AfterEnd(incoming);
    SuffixTransitive(AfterEnd(afterStats), afterStats, incoming);
    assert statsSent[..|statsSent|] == statsSent;
    match ParseStatsLines(ResponseLines(incoming))
    case Err(e) => Exchange(Err(e), statsSent, afterStats)
    case Ok(v) =>
      var sent := statsSent + Request(DiscoveryCommand(v));
      assert sent[..|statsSent|] == statsSent;
      Exchange(Ok(Concat(ResponseLines(afterStats))), sent, AfterEnd(afterStats))
  }

  /** `clusterNodes` given the value of `ELASTICACHE_ENDPOINT` and what the server will send. */
  function Discovery(env: string, incoming: seq<string>): (e: Exchange<seq<Node>>)
    ensures e.result == Err(EndpointNotSet) <==> |env| == 0
    ensures |env| == 0 ==> e.sent == "" && e.unread == incoming
    ensures |env| > 0 ==> |e.sent| >= |Request(StatsCommand)| && e.sent[..|Request(StatsCommand)|] == Request(StatsCommand)
    ensures IsSuffix(e.unread, incoming)
    ensures e.result.Ok? ==> forall i :: 0 <= i < |e.result.value| ==>
      FieldSeparator !in e.result.value[i].host && MinInt64 <= e.result.value[i].port <= MaxInt64
  {
    assert incoming[|incoming| - |incoming|..] == incoming;
    match LookupEndpoint(env)
    case Err(e) => Exchange(Err(e), "", incoming)
    case Ok(_) =>
      var data := NodeDataExchange(incoming);
      match data.result
      case Err(e) => Exchange(Err(e), data.sent, data.unread)
      case Ok(nodeInfo) =>
      var tokens := Split(nodeInfo, NodeSeparator);
      ParsedNodesWellFormed(tokens);
      Exchange(ParseTokens(tokens), data.sent, data.unread)
  }

  lemma ParsedNodesWellFormed(tokens: seq<string>)
    ensures var r := ParseTokens(tokens);
            r.Ok? ==> forall i :: 0 <= i < |r.value| ==>
              FieldSeparator !in r.value[i].host && MinInt64 <= r.value[i].port <= MaxInt64
  {
    var r := ParseTokens(tokens);
    if r.Ok? {
      forall i | 0 <= i < |r.value|
        ensures FieldSeparator !in r.value[i].host && MinInt64 <= r.value[i].port <= MaxInt64
      {
        assert ParseNodeLine(tokens[i]) == Ok(r.value[i]);
      }
    }
  }

  /** `getNodeData`. */
  method GetNodeData(conn: Connection) returns (r: Result<string, Error>)
    modifies conn
    ensures var e := NodeDataExchange(old(conn.unread));
      r == e.result && conn.sent == old(conn.sent) + e.sent && conn.unread == e.unread
  {
    ghost var incoming, sent := conn.unread, conn.sent;
    ghost var e := NodeDataExchange(incoming);
    var statsReply := RemoteCommandLines(conn, StatsCommand);
    var stats := ParseStatsLines(statsReply);
    if stats.Err? {
      assert e == Exchange(Err(stats.error), Request(StatsCommand), conn.unread);
      return Err(stats.error);
    }
    var nodeInfo := RemoteCommand(conn, DiscoveryCommand(stats.value));
    AppendAssociative(sent, Request(StatsCommand), Request(DiscoveryCommand(stats.value)));
    return Ok(nodeInfo);
  }

  /**
   * `clusterNodes`: look the endpoint up, run the discovery exchange on
   * `conn` (the connection to that endpoint) and parse the node list.
   */
  method ClusterNodes(env: string, conn: Connection) returns (r: Result<seq<Node>, Error>)
    modifies conn
    ensures var e := Discovery(env, old(conn.unread));
      r == e.result && conn.sent == old(conn.sent) + e.sent && conn.unread == e.unread
  {
    var endpoint := LookupEndpoint(env);
    if endpoint.Err? {
      return Err(endpoint.error);
    }
    var nodeInfo := GetNodeData(conn);
    if nodeInfo.Err? {
      return Err(nodeInfo.error);
    }
    r := ParseNodeInfo(nodeInfo.value);
  }

  /** `New`: the addresses of the discovered nodes, or the first error met. */
  method New(env: string, conn: Connection) returns (r: Result<seq<string>, Error>)
    modifies conn
    ensures var e := Discovery(env, old(conn.unread));
      && (r.Ok? <==> e.result.Ok?)
      && (r.Err? ==> r.error == e.result.error)
      && (r.Ok? ==> |r.value| == |e.result.value|
                    && forall i :: 0 <= i < |r.value| ==> r.value[i] == NodeURL(e.result.value[i]))
      && conn.sent == old(conn.sent) + e.sent && conn.unread == e.unread
  {
    var nodes := ClusterNodes(env, conn);
    if nodes.Err? {
      return Err(nodes.error);
    }
    var urls := ClientForNodes(nodes.value);
    return Ok(urls);
  }

  /** Without an endpoint nothing is sent and nothing is read. */
  lemma DiscoveryWithoutEndpoint(incoming: seq<string>)
    ensures Discovery("", incoming) == Exchange(Err(EndpointNotSet), "", incoming)
  {
  }

  /**
   * A well-framed session: the stats reply (whose version is `v`) and the
   * reply to the discovery command each end with `END`. Exactly `stats` and
   * the chosen command are sent, the glued node data is parsed, and what
   * follows is left unread.
   */
  lemma DiscoveryFramed(env: string, statsReply: seq<string>, v: Version, nodeReply: seq<string>, after: seq<string>)
    requires |env| > 0
    requires OutputEndMarker !in statsReply && ParseStatsLines(statsReply) == Ok(v)
    requires OutputEndMarker !in nodeReply
    ensures Discovery(env, statsReply + [OutputEndMarker] + nodeReply + [OutputEndMarker] + after)
         == Exchange(ParseTokens(Split(Concat(nodeReply), NodeSeparator)),
                     Request(StatsCommand) + Request(DiscoveryCommand(v)),
                     after)
  {
    NodeDataFramed(statsReply, v, nodeReply, after);
  }

  lemma NodeDataFramed(statsReply: seq<string>, v: Version, nodeReply: seq<string>, after: seq<string>)
    requires OutputEndMarker !in statsReply && ParseStatsLines(statsReply) == Ok(v)
    requires OutputEndMarker !in nodeReply
    ensures NodeDataExchange(statsReply + [OutputEndMarker] + nodeReply + [OutputEndMarker] + after)
         == Exchange(Ok(Concat(nodeReply)),
                     Request(StatsCommand) + Request(DiscoveryCommand(v)),
                     after)
  {
    var rest := nodeReply + [OutputEndMarker] + after;
    var incoming := statsReply + [OutputEndMarker] + nodeReply + [OutputEndMarker] + after;
    assert incoming == statsReply + [OutputEndMarker] + rest;
    FramedResponse(statsReply, rest);
    assert ResponseLines(incoming) == statsReply && AfterEnd(incoming) == rest;
    FramedResponse(nodeReply, after);
    assert ResponseLines(rest) == nodeReply && AfterEnd(rest) == after;
  }

  /** A stats reply without a version line ends the session after `stats`. */
  lemma DiscoveryWithoutVersion(env: string, statsReply: seq<string>, after: seq<string>)
    requires |env| > 0
    requires OutputEndMarker !in statsReply
    requires forall i :: 0 <= i < |statsReply| ==> MatchVersionLine(statsReply[i]) == None
    ensures Discovery(env, statsReply + [OutputEndMarker] + after)
         == Exchange(Err(NoVersionInfo), Request(StatsCommand), after)
  {
    FramedResponse(statsReply, after);
  }

  /**
   * A 1.4.14 server whose stats reply starts with its process id and whose
   * node data is the three-node sample: it is sent `stats` and then
   * `config get cluster`, and the three nodes come back in order.
   */
  lemma DiscoveryExample(env: string, incoming: seq<string>)
    requires env == "foo"
    requires incoming == SampleStatsReply + [OutputEndMarker, SampleNodeInfo, OutputEndMarker]
    ensures Discovery(env, incoming)
         == Exchange(Ok(SampleNodes), Request(StatsCommand) + Request(NewCommand), [])
  {
    var statsReply := incoming[..3];
    assert statsReply == SampleStatsReply;
    SampleStatsFacts(statsReply);
    ParseNodeInfoExample();
    SingleLineReply(env, statsReply, [1, 4, 14], SampleNodeInfo, incoming);
  }

  lemma SingleLineReply(env: string, statsReply: seq<string>, v: Version, nodeInfo: string, incoming: seq<string>)
    requires |env| > 0
    requires OutputEndMarker !in statsReply && ParseStatsLines(statsReply) == Ok(v)
    requires nodeInfo != OutputEndMarker
    requires incoming == statsReply + [OutputEndMarker, nodeInfo, OutputEndMarker]
    ensures Discovery(env, incoming)
         == Exchange(ParseTokens(Split(nodeInfo, NodeSeparator)),
                     Request(StatsCommand) + Request(DiscoveryCommand(v)), [])
  {
    assert incoming == statsReply + [OutputEndMarker] + [nodeInfo] + [OutputEndMarker] + [];
    assert Concat([nodeInfo]) == nodeInfo;
    DiscoveryFramed(env, statsReply, v, [nodeInfo], []);
  }

  lemma SampleStatsFacts(statsReply: seq<string>)
    requires statsReply == SampleStatsReply
    ensures OutputEndMarker !in statsReply
    ensures ParseStatsLines(statsReply) == Ok([1, 4, 14])
    ensures DiscoveryCommand([1, 4, 14]) == NewCommand
  {
    StatsReplyAsWritten(statsReply);
    DiscoveryCommandBoundary();
  }

  /**
   * The node-list loop takes the glued reply as one list of entries, so a
   * reply whose first line is a header such as `CONFIG cluster 0 25` fails
   * on the header's first word.
   */
  lemma HeaderWordRejected(nodeReply: seq<string>, word: string, rest: string)
    requires |nodeReply| >= 1 && nodeReply[0] == word + [NodeSeparator] + rest
    requires FieldSeparator !in word && NodeSeparator !in word
    ensures ParseTokens(Split(Concat(nodeReply), NodeSeparator)) == Err(MissingField(word))
  {
    FirstWord(nodeReply, word, rest);
    ParseNodeLineShort(word, "");
    ParseTokensFirstError(Split(Concat(nodeReply), NodeSeparator), 0);
  }

  lemma FirstWord(nodeReply: seq<string>, word: string, rest: string)
    requires |nodeReply| >= 1 && nodeReply[0] == word + [NodeSeparator] + rest
    requires NodeSeparator !in word
    ensures Split(Concat(nodeReply), NodeSeparator)[0] == word
  {
    var tail := rest + Concat(nodeReply[1..]);
    assert Concat(nodeReply) == word + [NodeSeparator] + tail;
    SplitAtFirstSep(word, NodeSeparator, tail);
  }

  /** The reply to `config get cluster`: a header, the configuration version, the entries, a blank line. */
  const SampleConfigReply := ["CONFIG cluster 0 25", "1", "localhost|127.0.0.1|11211", ""]

  /** A 1.4.14 server answering `config get cluster` with its header: discovery fails on `CONFIG`. */
  lemma HeaderedReplyRejected(env: string, incoming: seq<string>)
    requires env == "foo"
    requires incoming == SampleStatsReply + [OutputEndMarker] + SampleConfigReply + [OutputEndMarker]
    ensures Discovery(env, incoming)
         == Exchange(Err(MissingField("CONFIG")), Request(StatsCommand) + Request(NewCommand), [])
  {
    var statsReply := incoming[..3];
    assert statsReply == SampleStatsReply;
    SampleStatsFacts(statsReply);
    SampleConfigHeader();
    assert incoming == statsReply + [OutputEndMarker] + SampleConfigReply + [OutputEndMarker] + [];
    DiscoveryFramed(env, statsReply, [1, 4, 14], SampleConfigReply, []);
  }

  lemma SampleConfigHeader()
    ensures OutputEndMarker !in SampleConfigReply
    ensures ParseTokens(Split(Concat(SampleConfigReply), NodeSeparator)) == Err(MissingField("CONFIG"))
  {
    assert SampleConfigReply[0] == "CONFIG" + [NodeSeparator] + "cluster 0 25";
    HeaderWordRejected(SampleConfigReply, "CONFIG", "cluster 0 25");
  }
}

=== FILE: results.dfy ===
/** Success-or-error values, standing in for Go's `(value, error)` return pairs. */
module Results {

  datatype Result<+T, +E> = Ok(value: T) | Err(error: E)

  datatype Option<+T> = None | Some(value: T)
}

=== FILE: strconv.dfy ===
/**
 * Decimal integers as Go's `strconv.Atoi` reads them and as `%d` (or
 * `strconv.Itoa`) writes them, on a 64-bit platform where `int` is 64 bits.
 */
module GoStrconv {
  import opened Results

  const MaxInt64: int := 0x7FFF_FFFF_FFFF_FFFF
  const MinInt64: int := -0x8000_0000_0000_0000
  const MaxUint64: int := 0xFFFF_FFFF_FFFF_FFFF

  /** The two failures `strconv.Atoi` reports: `ErrSyntax` and `ErrRange`. */
  datatype NumError = ErrSyntax | ErrRange

  predicate IsDigit(c: char)
  {
    '0' <= c <= '9'
  }

  predicate AllDigits(s: string)
  {
    forall i :: 0 <= i < |s| ==> IsDigit(s[i])
  }

  function DigitValue(c: char): nat
    requires IsDigit(c)
  {
    (c - '0') as nat
  }

  function DigitChar(d: nat): (c: char)
    requires d < 10
    ensures IsDigit(c) && DigitValue(c) == d
  {
    ('0' as int + d) as char
  }

  /** The number a run of decimal digits denotes, most significant first. */
  function DecimalValue(s: string): nat
    requires AllDigits(s)
  {
    if |s| == 0 then 0 else DecimalValue(s[..|s| - 1]) * 10 + DigitValue(s[|s| - 1])
  }

  /** The shortest decimal spelling of `n`: it reads back as `n`. */
  function NatToDecimal(n: nat): (s: string)
    ensures |s| >= 1 && AllDigits(s)
    ensures DecimalValue(s) == n
    ensures |s| > 1 ==> s[0] != '0'
  {
    if n < 10 then [DigitChar(n)]
    else
      var s := NatToDecimal(n / 10) + [DigitChar(n % 10)];
      assert s[..|s| - 1] == NatToDecimal(n / 10);
      s
  }

  /** `strconv.Itoa(n)`, which is also what `fmt.Sprintf("%d", n)` writes. */
  function Itoa(n: int): string
  {
    if n < 0 then "-" + NatToDecimal(-n) else NatToDecimal(n)
  }

  /** The length of the longest prefix of `s` made of digits. */
  function DigitRun(s: string): (k: nat)
    ensures k <= |s|
    ensures AllDigits(s[..k])
    ensures k < |s| ==> !IsDigit(s[k])
  {
    if |s| == 0 || !IsDigit(s[0]) then 0
    else
      var k := 1 + DigitRun(s[1..]);
      assert s[..k] == [s[0]] + s[1..][..k - 1];
      k
  }

  /**
   * `strconv.Atoi(s)`: an optional `+` or `-`, then at least one decimal
   * digit and nothing else, denoting a value that fits in 64 bits. As in
   * `strconv.ParseUint`, which scans left to right, a digit run that already
   * overflows 64 unsigned bits is a range error even when a non-digit follows;
   * otherwise any non-digit is a syntax error.
   */
  function Atoi(s: string): (r: Result<int, NumError>)
    ensures r.Ok? ==> MinInt64 <= r.value <= MaxInt64
  {
    if |s| == 0 then Err(ErrSyntax)
    else
      var negative := s[0] == '-';
      var body := if s[0] == '+' || s[0] == '-' then s[1..] else s;
      if |body| == 0 then Err(ErrSyntax)
      else
        var k := DigitRun(body);
        var magnitude: int := DecimalValue(body[..k]);
        if magnitude > MaxUint64 then Err(ErrRange)
        else if k < |body| then Err(ErrSyntax)
        else if negative && magnitude > MaxInt64 + 1 then Err(ErrRange)
        else if !negative && magnitude > MaxInt64 then Err(ErrRange)
        else Ok(if negative then -magnitude else magnitude)
  }

  /** The digit run of an all-digit string is the whole string. */
  lemma DigitRunOfDigits(s: string)
    requires AllDigits(s)
    ensures DigitRun(s) == |s|
  {
  }

  /** Round trip: every 64-bit integer that `Itoa` writes, `Atoi` reads back. */
  lemma AtoiItoa(n: int)
    requires MinInt64 <= n <= MaxInt64
    ensures Atoi(Itoa(n)) == Ok(n)
  {
    var s := Itoa(n);
    if n < 0 {
      var digits := NatToDecimal(-n);
      assert s[1..] == digits;
      DigitRunOfDigits(digits);
      assert digits[..|digits|] == digits;
    } else {
      DigitRunOfDigits(s);
      assert s[..|s|] == s;
    }
  }

  /** What `Atoi` accepts: an optional sign, then decimal digits that denote the value. */
  lemma AtoiSound(s: string, n: int)
    requires Atoi(s) == Ok(n)
    ensures |s| > 0
    ensures var body := if s[0] == '+' || s[0] == '-' then s[1..] else s;
      |body| > 0 && AllDigits(body) && (if s[0] == '-' then -(DecimalValue(body) as int) else DecimalValue(body) as int) == n
  {
    var body := if s[0] == '+' || s[0] == '-' then s[1..] else s;
    var k := DigitRun(body);
    assert body[..k] == body;
  }

  /**
   * Conversely, an optional sign followed by decimal digits (leading zeros
   * and `+` included) is read as its value when that fits in 64 bits, and is
   * a range error otherwise.
   */
  lemma AtoiComplete(s: string)
    requires |s| > 0
    requires var body := if s[0] == '+' || s[0] == '-' then s[1..] else s;
      |body| > 0 && AllDigits(body)
    ensures var body := if s[0] == '+' || s[0] == '-' then s[1..] else s;
      var v: int := if s[0] == '-' then -(DecimalValue(body) as int) else DecimalValue(body);
      Atoi(s) == if MinInt64 <= v <= MaxInt64 then Ok(v) else Err(ErrRange)
  {
    var body := if s[0] == '+' || s[0] == '-' then s[1..] else s;
    DigitRunOfDigits(body);
    assert body[..|body|] == body;
  }

  /** The digit run of `digits + rest` stops where `rest` begins with a non-digit. */
  lemma {:induction false} DigitRunOf(digits: string, rest: string)
    requires AllDigits(digits)
    requires |rest| > 0 ==> !IsDigit(rest[0])
    ensures DigitRun(digits + rest) == |digits|
    decreases |digits|
  {
    if |digits| > 0 {
      assert (digits + rest)[1..] == digits[1..] + rest;
      DigitRunOf(digits[1..], rest);
    }
  }

  /**
   * A digit run that overflows 64 unsigned bits is a range error even when a
   * non-digit follows it: the scan stops at the overflowing digit, before it
   * could see the bad character.
   */
  lemma AtoiOverflowFirst(sign: string, digits: string, rest: string)
    requires |sign| <= 1 && forall i :: 0 <= i < |sign| ==> sign[i] == '+' || sign[i] == '-'
    requires |digits| > 0 && AllDigits(digits) && DecimalValue(digits) > MaxUint64
    requires |rest| > 0 ==> !IsDigit(rest[0])
    ensures Atoi(sign + digits + rest) == Err(ErrRange)
  {
    SignedDigits(sign, digits, rest);
    AtoiOverflowingRun(sign + digits + rest);
  }

  /**
   * The other half of the precedence: when the digits before the first
   * non-digit fit in 64 unsigned bits, that non-digit is a syntax error.
   */
  lemma AtoiSyntaxAfterFittingRun(sign: string, digits: string, rest: string)
    requires |sign| <= 1 && forall i :: 0 <= i < |sign| ==> sign[i] == '+' || sign[i] == '-'
    requires |digits| > 0 && AllDigits(digits) && DecimalValue(digits) <= MaxUint64
    requires |rest| > 0 && !IsDigit(rest[0])
    ensures Atoi(sign + digits + rest) == Err(ErrSyntax)
  {
    SignedDigits(sign, digits, rest);
  }

  /** After the optional sign, the digit run of `sign + digits + rest` is exactly `digits`. */
  lemma SignedDigits(sign: string, digits: string, rest: string)
    requires |sign| <= 1 && forall i :: 0 <= i < |sign| ==> sign[i] == '+' || sign[i] == '-'
    requires |digits| > 0 && AllDigits(digits)
    requires |rest| > 0 ==> !IsDigit(rest[0])
    ensures var s := sign + digits + rest;
      && |s| > 0
      && var body := if s[0] == '+' || s[0] == '-' then s[1..] else s;
         DigitRun(body) == |digits| && body[..|digits|] == digits
  {
    var s := sign + digits + rest;
    var body := digits + rest;
    DigitRunOf(digits, rest);
    assert body[..|digits|] == digits;
    if |sign| == 0 {
      assert s == body && IsDigit(s[0]);
    } else {
      assert s[0] == sign[0] && s[1..] == body;
    }
  }

  /** The range error of an overflowing digit run, read off `Atoi` itself. */
  lemma AtoiOverflowingRun(s: string)
    requires |s| > 0
    requires var body := if s[0] == '+' || s[0] == '-' then s[1..] else s;
      DecimalValue(body[..DigitRun(body)]) > MaxUint64
    ensures Atoi(s) == Err(ErrRange)
  {
  }

  /** `Itoa` never writes the same text for two different numbers. */
  lemma ItoaInjective(a: int, b: int)
    requires Itoa(a) == Itoa(b)
    ensures a == b
  {
    if a < 0 && b < 0 {
      assert NatToDecimal(-a) == Itoa(a)[1..] == Itoa(b)[1..] == NatToDecimal(-b);
    }
  }

  /** `Itoa` writes only digits and a leading minus sign. */
  lemma ItoaAlphabet(n: int, c: char)
    requires c != '-' && !IsDigit(c)
    ensures c !in Itoa(n)
  {
    if n < 0 {
      assert Itoa(n) == ['-'] + NatToDecimal(-n);
    }
  }

  /**
   * A character other than a digit, after the optional leading sign, makes
   * `Atoi` fail (with a syntax or, for an overflowing digit run, a range error).
   */
  lemma AtoiRejectsNonDigit(s: string, i: nat)
    requires i < |s| && !IsDigit(s[i])
    requires i > 0 || (s[0] != '+' && s[0] != '-')
    ensures Atoi(s).Err?
  {
    var body := if s[0] == '+' || s[0] == '-' then s[1..] else s;
    var j := if s[0] == '+' || s[0] == '-' then i - 1 else i;
    assert body[j] == s[i];
  }

  /** The cases the node parser meets: a port, a text field, an empty field. */
  lemma AtoiExamples()
    ensures Atoi("11211") == Ok(11211)
    ensures Atoi("-7") == Ok(-7)
    ensures Atoi("foo") == Err(ErrSyntax)
    ensures Atoi("") == Err(ErrSyntax)
    ensures Atoi("-") == Err(ErrSyntax)
  {
    AtoiAcceptsSamples("11211", "-7");
    assert DigitRun("foo") == 0;
  }

  lemma AtoiAcceptsSamples(port: string, negative: string)
    requires port == "11211" && negative == "-7"
    ensures Atoi(port) == Ok(11211)
    ensures Atoi(negative) == Ok(-7)
  {
    assert NatToDecimal(11) == "11" && NatToDecimal(112) == "112" && NatToDecimal(1121) == "1121";
    AtoiOf(port, 11211);
    AtoiOf(negative, -7);
  }

  lemma AtoiOf(s: string, n: int)
    requires MinInt64 <= n <= MaxInt64 && s == Itoa(n)
    ensures Atoi(s) == Ok(n)
  {
    AtoiItoa(n);
  }
}

=== FILE: strings.dfy ===
/**
 * The parts of Go's `strings` package the discovery code relies on:
 * `strings.Split` with a one-character separator, its inverse `Join`,
 * and the separator-free concatenation that `response += line` builds.
 */
module GoStrings {

  /** Concatenation of `lines` with nothing between them. */
  function Concat(lines: seq<string>): string
  {
    if |lines| == 0 then "" else lines[0] + Concat(lines[1..])
  }

  /** Joins `parts` with `sep` between consecutive parts. */
  function Join(parts: seq<string>, sep: char): string
  {
    if |parts| == 0 then ""
    else if |parts| == 1 then parts[0]
    else parts[0] + [sep] + Join(parts[1..], sep)
  }

  /**
   * `strings.Split(s, string(sep))`: the maximal pieces of `s` between
   * occurrences of `sep`. Like Go, an empty `s` gives one empty piece, and
   * `k` separators always give `k + 1` pieces.
   */
  function Split(s: string, sep: char): (parts: seq<string>)
    ensures |parts| >= 1
    ensures forall i :: 0 <= i < |parts| ==> sep !in parts[i]
    ensures Join(parts, sep) == s
    decreases |s|
  {
    if |s| == 0 then [""]
    else
      var rest := Split(s[1..], sep);
      if s[0] == sep then
        assert s == [sep] + s[1..];
        [""] + rest
      else
        var first := [s[0]] + rest[0];
        assert |rest| > 1 ==> Join(rest, sep) == rest[0] + [sep] + Join(rest[1..], sep);
        assert s == [s[0]] + s[1..];
        [first] + rest[1..]
  }

  /** A piece without the separator is not split further. */
  lemma {:induction false} SplitWithoutSep(a: string, sep: char)
    requires sep !in a
    ensures Split(a, sep) == [a]
    decreases |a|
  {
    if |a| > 0 {
      SplitWithoutSep(a[1..], sep);
      assert [a[0]] + a[1..] == a;
    }
  }

  /** Splitting stops at the first separator and continues after it. */
  lemma {:induction false} SplitAtFirstSep(a: string, sep: char, b: string)
    requires sep !in a
    ensures Split(a + [sep] + b, sep) == [a] + Split(b, sep)
    decreases |a|
  {
    var s := a + [sep] + b;
    if |a| == 0 {
      assert s[1..] == b;
    } else {
      assert s[1..] == a[1..] + [sep] + b;
      SplitAtFirstSep(a[1..], sep, b);
      assert [a[0]] + a[1..] == a;
    }
  }

  /** Round trip: splitting a join of separator-free parts gives the parts back. */
  lemma {:induction false} SplitJoin(parts: seq<string>, sep: char)
    requires |parts| >= 1
    requires forall i :: 0 <= i < |parts| ==> sep !in parts[i]
    ensures Split(Join(parts, sep), sep) == parts
    decreases |parts|
  {
    if |parts| == 1 {
      SplitWithoutSep(parts[0], sep);
    } else {
      SplitJoin(parts[1..], sep);
      SplitAtFirstSep(parts[0], sep, Join(parts[1..], sep));
      assert [parts[0]] + parts[1..] == parts;
    }
  }

  /** Concatenation is associative; stated once so that callers need not re-derive it element by element. */
  lemma AppendAssociative(a: string, b: string, c: string)
    ensures (a + b) + c == a + (b + c)
  {
  }
}

=== FILE: transport.dfy ===
/**
 * The connection to the configuration endpoint, seen as what the discovery
 * code does with it: write command text, and read the server's reply one
 * line at a time (a `bufio.Scanner` with its default line splitting, so a
 * line carries no line terminator).
 */
module Transport {

  class Connection {
    /** Lines the server has sent that have not been read yet, in order. */
    var unread: seq<string>
    /** Everything written to the connection so far. */
    var sent: string

    /** A connection over which the server will send `reply`. */
    constructor (reply: seq<string>)
      ensures unread == reply && sent == ""
    {
      unread := reply;
      sent := "";
    }

    /** `fmt.Fprintf(conn, data)`. */
    method Write(data: string)
      modifies this
      ensures sent == old(sent) + data
      ensures unread == old(unread)
    {
      sent := sent + data;
    }

    /**
     * `scanner.Scan()` followed by `scanner.Text()`: `ok` is false once the
     * server has nothing more to send.
     */
    method ReadLine() returns (ok: bool, line: string)
      modifies this
      ensures ok <==> old(unread) != []
      ensures ok ==> line == old(unread)[0] && unread == old(unread)[1..]
      ensures !ok ==> unread == old(unread)
      ensures sent == old(sent)
    {
      ok := unread != [];
      if ok {
        line := unread[0];
        unread := unread[1..];
      } else {
        line := "";
      }
    }
  }
}

=== FILE: versions.dfy ===
/**
 * Server versions, reduced to what the discovery code asks of them: read
 * `x.y.z` text into its numeric segments and order two versions. Segments
 * are compared left to right, a missing segment counting as 0, so `1.4`
 * and `1.4.0` are the same version.
 */
module Versions {
  import opened Results
  import opened GoStrings
  import opened GoStrconv

  /** The dot-separated numeric segments of a version, most significant first. */
  type Version = seq<nat>

  /** A dot-separated piece of a version text that denotes a segment. */
  predicate IsSegmentText(part: string)
  {
    |part| > 0 && AllDigits(part)
  }

  function ParseSegments(parts: seq<string>): (r: Option<Version>)
    ensures r.Some? <==> forall i :: 0 <= i < |parts| ==> IsSegmentText(parts[i])
    ensures r.Some? ==> |r.value| == |parts|
    ensures r.Some? ==> forall i :: 0 <= i < |parts| ==> r.value[i] == DecimalValue(parts[i])
  {
    if |parts| == 0 then Some([])
    else if !IsSegmentText(parts[0]) then None
    else
      match ParseSegments(parts[1..])
      case None => None
      case Some(rest) => Some([DecimalValue(parts[0])] + rest)
  }

  /**
   * Reads a version text: one or more non-empty digit runs separated by
   * single dots. `1..4`, `.1` and `1.` are malformed.
   */
  function ParseVersion(text: string): (r: Option<Version>)
    ensures r.Some? ==> |r.value| == |Split(text, '.')| >= 1
  {
    ParseSegments(Split(text, '.'))
  }

  /** The canonical text of a version: its segments in decimal, joined by dots. */
  function FormatVersion(v: Version): string
  {
    Join(SegmentTexts(v), '.')
  }

  function SegmentTexts(v: Version): seq<string>
  {
    if |v| == 0 then [] else [NatToDecimal(v[0])] + SegmentTexts(v[1..])
  }

  lemma {:induction false} SegmentTextsAt(v: Version)
    ensures |SegmentTexts(v)| == |v|
    ensures forall i :: 0 <= i < |v| ==> SegmentTexts(v)[i] == NatToDecimal(v[i])
    decreases |v|
  {
    if |v| > 0 {
      SegmentTextsAt(v[1..]);
    }
  }

  /** Round trip: a non-empty version survives formatting and reading back. */
  lemma ParseFormatVersion(v: Version)
    requires |v| >= 1
    ensures ParseVersion(FormatVersion(v)) == Some(v)
  {
    var parts := SegmentTexts(v);
    SegmentTextsAt(v);
    forall i | 0 <= i < |parts|
      ensures '.' !in parts[i]
    {
      assert AllDigits(parts[i]);
    }
    SplitJoin(parts, '.');
    var r := ParseSegments(parts);
    assert r.Some?;
    assert r.value == v;
  }

  /** go-version's `Compare`: -1, 0 or 1 as `a` is below, equal to or above `b`. */
  function Compare(a: Version, b: Version): (c: int)
    ensures -1 <= c <= 1
    decreases |a| + |b|
  {
    if |a| == 0 && |b| == 0 then 0
    else
      var x := if |a| == 0 then 0 else a[0];
      var y := if |b| == 0 then 0 else b[0];
      if x < y then -1
      else if x > y then 1
      else Compare(if |a| == 0 then [] else a[1..], if |b| == 0 then [] else b[1..])
  }

  /** go-version's `LessThan`. */
  predicate LessThan(a: Version, b: Version)
    ensures LessThan(a, b) <==> Compare(b, a) == 1
    ensures LessThan(a, b) ==> a != b
  {
    CompareAntisymmetric(a, b);
    Compare(a, b) < 0
  }

  lemma {:induction false} CompareAntisymmetric(a: Version, b: Version)
    ensures Compare(a, b) == -Compare(b, a)
    decreases |a| + |b|
  {
    if |a| != 0 || |b| != 0 {
      CompareAntisymmetric(if |a| == 0 then [] else a[1..], if |b| == 0 then [] else b[1..]);
    }
  }

  /** The order is transitive, and strictly so when either step is strict. */
  lemma {:induction false} CompareTransitive(a: Version, b: Version, c: Version)
    requires Compare(a, b) <= 0 && Compare(b, c) <= 0
    ensures Compare(a, c) <= 0
    ensures Compare(a, b) < 0 || Compare(b, c) < 0 ==> Compare(a, c) < 0
    decreases |a| + |b| + |c|
  {
    if |a| != 0 || |b| != 0 || |c| != 0 {
      var x := if |a| == 0 then 0 else a[0];
      var y := if |b| == 0 then 0 else b[0];
      var z := if |c| == 0 then 0 else c[0];
      if x == y == z {
        CompareTransitive(if |a| == 0 then [] else a[1..], if |b| == 0 then [] else b[1..],
                          if |c| == 0 then [] else c[1..]);
      }
    }
  }

  /** Segment `i` of `v`, a missing segment counting as 0. */
  function Segment(v: Version, i: nat): nat
  {
    if i < |v| then v[i] else 0
  }

  /**
   * The order is lexicographic on segments: the first segment in which two
   * versions differ decides, and versions that differ in no segment are equal.
   */
  lemma {:induction false} CompareFirstDifference(a: Version, b: Version, k: nat)
    requires forall i :: 0 <= i < k ==> Segment(a, i) == Segment(b, i)
    ensures Segment(a, k) < Segment(b, k) ==> Compare(a, b) == -1
    ensures Segment(a, k) > Segment(b, k) ==> Compare(a, b) == 1
    ensures k >= |a| && k >= |b| ==> Compare(a, b) == 0
    decreases k
  {
    var a' := if |a| == 0 then [] else a[1..];
    var b' := if |b| == 0 then [] else b[1..];
    if k > 0 && (|a| != 0 || |b| != 0) {
      assert Segment(a, 0) == Segment(b, 0);
      forall i | 0 <= i < k - 1 ensures Segment(a', i) == Segment(b', i) {
        assert Segment(a', i) == Segment(a, i + 1) && Segment(b', i) == Segment(b, i + 1);
      }
      assert Segment(a', k - 1) == Segment(a, k) && Segment(b', k - 1) == Segment(b, k);
      CompareFirstDifference(a', b', k - 1);
    }
  }

  /** A trailing zero segment does not change a version: `1.4` equals `1.4.0`. */
  lemma {:induction false} CompareTrailingZero(a: Version, b: Version)
    ensures Compare(a + [0], b) == Compare(a, b)
    decreases |a| + |b|
  {
    if |a| == 0 {
      if |b| != 0 {
        assert Compare([], b[1..]) == Compare(([] + [0])[1..], b[1..]);
      }
    } else {
      assert (a + [0])[1..] == a[1..] + [0];
      CompareTrailingZero(a[1..], if |b| == 0 then [] else b[1..]);
    }
  }

  /** Segments compare as numbers, not as text: `1.10` is above `1.9`. */
  lemma SegmentsAreNumeric()
    ensures ParseVersion("1.10") == Some([1, 10])
    ensures ParseVersion("1.9") == Some([1, 9])
    ensures LessThan([1, 9], [1, 10])
  {
    TwoSegmentVersion("1.10", 1, 10);
    TwoSegmentVersion("1.9", 1, 9);
  }

  lemma TwoSegmentVersion(text: string, a: nat, b: nat)
    requires text == NatToDecimal(a) + "." + NatToDecimal(b)
    ensures ParseVersion(text) == Some([a, b])
  {
    var texts := [NatToDecimal(a), NatToDecimal(b)];
    assert [a, b][1..] == [b] && [b][1..] == [];
    assert SegmentTexts([b]) == [NatToDecimal(b)];
    assert SegmentTexts([a, b]) == texts;
    assert texts[1..] == [NatToDecimal(b)];
    assert Join(texts[1..], '.') == NatToDecimal(b);
    assert Join(texts, '.') == NatToDecimal(a) + ['.'] + NatToDecimal(b);
    assert FormatVersion([a, b]) == text;
    ParseFormatVersion([a, b]);
  }

  lemma ThreeSegmentVersion(text: string, a: nat, b: nat, c: nat)
    requires text == NatToDecimal(a) + "." + (NatToDecimal(b) + "." + NatToDecimal(c))
    ensures ParseVersion(text) == Some([a, b, c])
  {
    var first, rest := NatToDecimal(a), NatToDecimal(b) + "." + NatToDecimal(c);
    assert text == first + ['.'] + rest;
    SplitAtFirstSep(first, '.', rest);
    TwoSegmentVersion(rest, b, c);
    var parts := Split(text, '.');
    assert parts[0] == first && parts[1..] == Split(rest, '.');
    assert IsSegmentText(first);
    assert ParseSegments(parts) == Some([a] + [b, c]);
    assert [a] + [b, c] == [a, b, c];
    assert ParseVersion(text) == ParseSegments(parts);
  }

  /** Texts that the `[0-9.]+` capture admits but that are not versions. */
  lemma MalformedVersions()
    ensures ParseVersion("1..4") == None
    ensures ParseVersion(".1") == None
    ensures ParseVersion("1.") == None
  {
    SplitAtFirstSep("1", '.', ".4");
    SplitAtFirstSep("", '.', "4");
    SplitAtFirstSep("", '.', "1");
    SplitAtFirstSep("1", '.', "");
  }
}
